=== FILE: README.md ===
# KVM machine driver: decision layer

A Dafny model of the decision logic of the docker-machine KVM driver
(`kvm.go`). The driver manages one libvirt domain for one machine. This model
covers:

- the lifecycle operations `Start`, `Stop`, `Restart`, `Kill` and `Remove`,
  with their bounded poll loops;
- `GetState`, which maps libvirt's state codes to docker-machine states;
- the repair of the cached domain handle (`validateVMRef`);
- the discovery of the guest's address: the MAC address of the private
  interface, the dnsmasq lease file, the live DHCP leases, `GetIP` and
  `GetURL`;
- the check of the private network (`validatePrivateNetwork`).

libvirt and the host are not called. A `Hypervisor` value records what every
libvirt and file-system call would answer at one moment. A poll loop reads
one such snapshot per poll (`later: nat -> Hypervisor`), so each loop is a
bounded search over a sequence of observations. The driver record is an
immutable value. Every call returns the record as it is afterwards, together
with a `Result`. Go's `(value, error)` pairs become `Result`s, because every
error path in the modelled code returns the zero value. The one exception is
`getConn`, which returns an empty `libvirt.Connect` beside its error. The
model does not keep a connection value at all, only whether a session is open.

Modules, leaves first:
- `Wrappers`: `Option` and `Result`.
- `Text`: `strings.Split` on a single character, `Join` and `strings.ToLower`.
- `Types`: errors and their messages, machine states, interfaces, leases,
  the `Hypervisor` snapshot and the `Driver` record.
- `Session`: `getConn`, `validateVMRef` and `GetState`.
- `Leases`: the lease-file scan and the selection among live leases.
- `Discovery`: `getMAC`, `GetIP` and `GetURL`.
- `Polling`: the bounded poll loop shared by `Stop` and `Start`.
- `Lifecycle`: `Stop`, `Start`, `Restart`, `Kill` and `Remove`.
- `Network`: `validatePrivateNetwork`.

Behaviour of the code worth knowing:
- The live lease selection keeps the LAST lease whose MAC matches, because
  the loop has no `break`.
- `validateVMRef` swallows a failed lookup by name. `GetState` then fails
  because it has no handle (`NoDomainHandle`), not with the lookup's error.
- An existing private network that fails to restart makes
  `validatePrivateNetwork` return that error.
- A failed definition of a new private network returns no error.
- The network check tests only the address attribute of the `<ip>` element.
  It does not look at the DHCP range.
- A lease line is split on single spaces, not on runs of whitespace. Two
  adjacent spaces make an empty field.

## Model

| member | source | states |
|---|---|---|
| Text.Split | kvm.go:679-683 | lines and fields are the separator-free pieces of the input; there is always one piece more than there are separators |
| Text.JoinSplit | kvm.go:679-683 | joining the pieces with the separator gives back the input |
| Text.SplitJoin | kvm.go:679-683 | separator-free pieces survive a join followed by a split unchanged |
| Text.ToLower | kvm.go:688 | an upper-case ASCII letter becomes its lower-case partner and every other character stays, with the length unchanged |
| Text.ToLowerProperties | kvm.go:688 | lowering keeps the length, leaves no upper-case ASCII letter and is idempotent |
| Text.EqualFold | kvm.go:688 | two strings are equal after lowering iff they agree character by character up to ASCII case |
| Types.Decimal | kvm.go:666-667 | the count in the interface error is written with digits only, without a leading zero, and reads back to the count |
| Types.Message | kvm.go:241 | the texts of the driver's errors (also kvm.go:284, 533, 666-667 and 686); a passed-on error keeps its own text and no error of the driver's own has an empty text |
| Types.MessagesIdentifyErrors | kvm.go:666-667 | two of the driver's own errors with the same text are the same error, including the count and the network name they carry |
| Session.GetConn | kvm.go:236-246 | a cached session is reused; a failed connection gives the fixed group-membership error and is not cached |
| Session.SessionIsReused | kvm.go:237-245 | once a session is open, the next call succeeds without connecting and changes nothing, whatever the host answers |
| Session.RepairIsIdempotent | kvm.go:601-617 | repairing the handle a second time against the same answers gives the same result as repairing it once |
| Session.ValidateVMRef | kvm.go:601-617 | a loaded handle is kept without any call; only a connection failure is an error; the handle is loaded afterwards iff it was before or the lookup succeeded |
| Session.LookupFailureIsSwallowed | kvm.go:608-611 | a failed lookup returns no error and leaves the handle unloaded, so the state query that follows fails |
| Session.StateOfCode | kvm.go:579-598 | total map: SHUTDOWN and SHUTOFF give Stopped, BLOCKED and CRASHED give Error, PMSUSPENDED gives Saved, RUNNING gives Running, PAUSED gives Paused; NOSTATE and unknown codes give None; transitional states are never produced |
| Session.GetState | kvm.go:570-599 | succeeds iff the handle is loaded and libvirt reports a state, which is then mapped; a connection failure gives the connection error and a failed state query gives libvirt's own error |
| Session.GetStateOnLoadedHandle | kvm.go:570-578 | with a loaded handle the query leaves the driver unchanged and depends only on the native state code |
| Leases.LeaseFilePath | kvm.go:673 | the lease file lives in `/var/lib/libvirt/dnsmasq/` and is named after the network with the suffix `.leases`; the network's name can be read back from the path |
| Leases.LeaseFilesAreDistinct | kvm.go:33 | two different networks never share a lease file |
| Leases.LeaseFileLookup | kvm.go:672-678 | reads the dnsmasq lease file of the private network; an unreadable file is an error; otherwise the result is the scan of its lines |
| Leases.ScanLines | kvm.go:679-693 | the first non-empty line that is malformed gives "Malformed dnsmasq file"; the first that matches the MAC up to case gives its third field; if every line is passed over the result is "" with no error |
| Leases.FirstDecidingLine | kvm.go:679-693 | every file either has all lines passed over or has a first deciding line, so the three cases of the scan cover all inputs |
| Leases.MalformedBeforeMatchFails | kvm.go:683-687 | a malformed line fails the lookup even when a matching line comes later |
| Leases.ScanOutcomes | kvm.go:679-693 | the scan returns "", the malformed-file error, or the third field of some matching line |
| Leases.ScanLeaseFile | kvm.go:679-693 | the Go loop with its early returns computes the same answer as the recursive scan |
| Leases.MixedCaseMacResolves | kvm.go:688-691 | a lower-case query finds an upper-case entry and returns its address; the empty line after the final newline is never reached |
| Leases.GarbageLineSpoilsFile | kvm.go:683-687 | a non-empty line without spaces ahead of a matching entry makes the lookup fail |
| Leases.SelectLease | kvm.go:713-721 | the IP of the last lease whose MAC equals the query exactly, or "" if none does |
| Leases.SelectLeaseLoop | kvm.go:713-721 | the forward loop without `break` computes the last-match selection |
| Discovery.TemplateInterfaces | kvm.go:62-69 | the domain the driver defines has two network interfaces without MACs, the public network first and the private network second |
| Discovery.MacOfInterfaces | kvm.go:664-669 | fewer than 2 interfaces is an error that reports the count; otherwise the MAC of interface 1, never interface 0 |
| Discovery.TemplatePicksPrivateMac | kvm.go:62-69 | whatever MACs libvirt assigns, the MAC picked from a domain the driver defined belongs to the interface on the private network |
| Discovery.GetMAC | kvm.go:621-670 | on success the handle is loaded, the descriptor has at least 2 interfaces and the result is interface 1's MAC; a connection failure gives the connection error and a failed descriptor fetch or parse passes its error on |
| Discovery.LiveLookup | kvm.go:696-722 | succeeds iff a session exists or can be opened and libvirt lists the leases; the result is then the last-match selection; a failed lease listing passes its error on |
| Discovery.GetIP | kvm.go:724-743 | a MAC failure is returned at once; the lease file is tried first and the live leases only if it gave ""; the error is that of the last source tried; the cached address changes only to a non-empty result; the handle is the repaired one and an open session stays open |
| Discovery.LiveLeasesIgnoredOnFileHit | kvm.go:734-737 | when the lease file gives an address, the live leases play no part in the result |
| Discovery.FileErrorFallsBackToLive | kvm.go:734-737 | an unreadable or malformed lease file is not reported; the live lookup's answer is returned |
| Discovery.GetURL | kvm.go:223-234 | an error from GetIP is passed on; no address gives "" with no error; otherwise a non-empty URL |
| Discovery.URLCarriesAddress | kvm.go:233 | a non-empty URL is `tcp://<ip>:2376`, and the address read back from it is exactly the ip GetIP found |
| Polling.PollUntil | kvm.go:525-532 | the loop stops at the first poll whose answer is awaited and makes no poll after it; it finds one iff some poll within the budget gives one; without one it uses the whole budget |
| Lifecycle.AwaitStopped | kvm.go:525-533 | at most 90 polls; success iff some poll sees Stopped, at the first such poll; otherwise the kill-command error after all 90; with the handle loaded the driver comes out of the wait unchanged |
| Lifecycle.StatePollsKeepDriver | kvm.go:525-532 | with the handle loaded, any number of state polls leave the driver record exactly as it was |
| Lifecycle.Stop | kvm.go:509-536 | errors of handle repair, of the first state query and of the shutdown request are returned before any poll; an already stopped domain gives no error and no poll; otherwise it is the wait; the driver left is the one the first state query left, and after a successful Stop the handle is loaded |
| Lifecycle.AlreadyStoppedSkipsShutdown | kvm.go:519-535 | when the domain is already stopped, neither the shutdown request nor any later observation affects the outcome |
| Lifecycle.TimeoutPointsToKill | kvm.go:533 | the timeout message names the kill command |
| Lifecycle.AwaitIP | kvm.go:495-506 | between 1 and 350 polls; stops at the first poll that finds an address and polls all 350 times when none does; always succeeds; when no poll finds an address the cached address is the one from before the wait; with the handle loaded it stays loaded, the configuration is kept and an open session stays open |
| Lifecycle.FruitlessPollsKeepAddress | kvm.go:738-740 | address polls that all come back empty leave the cached address as it was |
| Lifecycle.IpPollsKeepHandle | kvm.go:495-501 | with the handle loaded, any number of address polls keep the handle and the configuration and never close an open session |
| Lifecycle.AwaitIPCachesAddress | kvm.go:495-501 | when some poll finds an address, the driver after the wait caches the non-empty address of the poll it stopped on |
| Lifecycle.Start | kvm.go:482-507 | succeeds iff the handle is loaded and power-on is accepted; a power-on error is returned with no poll, leaving the driver the handle repair left; after power-on it is the wait, which keeps the handle; at most 350 polls |
| Lifecycle.Restart | kvm.go:554-560 | succeeds iff Stop succeeds and libvirt accepts the power-on, since a successful Stop leaves the handle loaded; a failed Stop's error is returned; at most 350 polls |
| Lifecycle.RestartStartsOnlyAfterStop | kvm.go:556-559 | after a failed Stop nothing about Start matters; a restart succeeds iff Stop succeeds and libvirt accepts the power-on, because a successful Stop leaves the handle loaded |
| Lifecycle.Kill | kvm.go:562-568 | succeeds iff the handle is repaired and loaded and the forced power-off succeeds; a repair failure gives the connection error and a power-off error is returned |
| Lifecycle.KillIsRepeatable | kvm.go:562-568 | killing again against the same answers gives the same driver and the same result |
| Lifecycle.Remove | kvm.go:538-552 | a repair failure gives the connection error; then a storage-removal error is returned; an undefine error is returned; success iff storage removal and undefine both succeed on a loaded handle |
| Lifecycle.RemoveIgnoresDestroy | kvm.go:550 | the outcome of the forced power-off inside Remove never changes the result |
| Network.DefinedNetwork | kvm.go:299-303 | the network the driver defines carries the requested name and passes the configuration check, and its gateway address differs from both ends of its DHCP range |
| Network.ConfiguredIgnoresRange | kvm.go:283-285 | Configured, the test at kvm.go:283, looks only at the address: descriptors with the same address pass or fail together whatever their netmask and DHCP range, and one without an address fails |
| Network.ValidatePrivateNetwork | kvm.go:249-320 | existing network: descriptor errors are returned, a missing address is the misconfiguration error, an inactive network whose start fails returns that error; new network: a definition failure returns no error, a start failure is returned |
| Network.AutostartErrorIgnored | kvm.go:310-313 | the outcome of setting autostart never changes the result |
| Network.DefinedNetworkRevalidates | kvm.go:283-319 | a newly defined network passes the check made on existing networks, and a second validation of the running network succeeds |

## Left out

- libvirt itself: `NewConnect`, the domain and network lookups, `DomainDefineXML`, `Create`, `Shutdown`, `Destroy`, `Undefine`, `GetDHCPLeases` and the network calls are foreign calls. Their answers are fields of the `Hypervisor` snapshot.
- XML: `encoding/xml` parsing and `text/template` rendering are library code. The model starts from the parsed interface list and network descriptor. From the domain template it keeps only the interface order, public network first and private network second.
- `Create`, `PreCreateCheck`, `validateNetwork`, `prepareKVMDiskAndISO`, `createRawDiskImage`, `fixPermissions`, the `os.Chmod` block, `generateDiskImage` and `createDiskImage`: these are file-system side effects and disk-image building, outside the decision layer.
- Time: `time.Sleep` and the initial grace period of `d.Timeout` seconds in `Start` are not modelled. Loops are counted in polls.
- Configuration and registration: SSH key generation, the flags, `SetConfigFromFlags`, `GetSSHPort`, `GetSSHUsername`, `GetSSHKeyPath`, `DriverName`, `NewDriver` and `main.go` are glue with no decisions.
- Logging is not modelled.
- Text.ToLower: lowers ASCII letters only, where Go's `strings.ToLower` lowers all of Unicode. MAC addresses are hexadecimal ASCII.
- Leases.LeaseFileLookup: a missing file is the only read failure modelled. Other `ReadFile` errors, such as permissions, behave the same way but are not listed separately.
- Discovery.LiveLookup: the error of `LookupNetworkByName` is overwritten at kvm.go:702 before it is checked. On a failed lookup libvirt-go returns a nil network, so `network.GetName()` dereferences nil and Go panics; no error is returned. The model turns this crash into the failure of the `dhcpLeases` answer.
- NoDomainHandle: a domain call made before any handle was loaded panics on a nil pointer in Go, or gets libvirt's invalid-pointer error after the record was reloaded. The model reports it as an error.
- Session.GetState: the `state.None` that Go returns beside an error is dropped. Callers either return the error or treat it as "not Stopped", and the model does the same.
- Persisting the driver record between processes (JSON) is not modelled. The loaded handle is kept only within one run of calls.

=== FILE: discovery.dfy ===
/** Network discovery: the private interface's MAC address, the two lease
    sources tried in order, and the URL built from the address found. */
module Discovery {
  import opened Wrappers
  import opened Types
  import opened Session
  import opened Leases

  /** The interfaces of the domain descriptor the driver defines: the public
      network first, the private network second. libvirt fills in the MAC
      addresses when it defines the domain. */
  function TemplateInterfaces(network: string, privateNetwork: string): (r: seq<Interface>)
    ensures |r| == 2
    ensures r[0].sourceNetwork == network && r[1].sourceNetwork == privateNetwork
    ensures forall i :: 0 <= i < |r| ==> r[i].kind == "network" && r[i].mac == ""
  {
    [Interface("network", "", network), Interface("network", "", privateNetwork)]
  }

  /** The descriptor as libvirt returns it: the same interfaces, in the same
      order, each with the MAC address libvirt assigned to it. */
  function AssignMacs(ifaces: seq<Interface>, macs: seq<string>): (r: seq<Interface>)
    requires |macs| == |ifaces|
    ensures |r| == |ifaces|
    ensures forall i :: 0 <= i < |r| ==>
              r[i] == ifaces[i].(mac := macs[i])
  {
    seq(|ifaces|, i requires 0 <= i < |ifaces| => ifaces[i].(mac := macs[i]))
  }

  /** `getMAC` after parsing: fewer than two interfaces is an error that
      reports how many there are; otherwise the MAC of the second interface,
      never the first. */
  function MacOfInterfaces(ifaces: seq<Interface>): (r: Result<string, Error>)
    ensures r.Failure? <==> |ifaces| < 2
    ensures r.Failure? ==> r.error == TooFewInterfaces(|ifaces|)
    ensures r.Success? ==> r.value == ifaces[1].mac
  {
    if |ifaces| < 2 then Failure(TooFewInterfaces(|ifaces|)) else Success(ifaces[1].mac)
  }

  /** Whatever MAC addresses libvirt assigns, the address `getMAC` picks from
      a domain the driver defined belongs to the interface on the private
      network. */
  lemma TemplatePicksPrivateMac(network: string, privateNetwork: string, macs: seq<string>)
    requires |macs| == 2
    ensures var ifaces := AssignMacs(TemplateInterfaces(network, privateNetwork), macs);
            MacOfInterfaces(ifaces) == Success(macs[1]) &&
            ifaces[1].sourceNetwork == privateNetwork && ifaces[1].mac == macs[1]
  {
  }

  /** `getMAC`: repair the handle, fetch and parse the live descriptor, and
      take the private interface's MAC address. */
  function GetMAC(d: Driver, hv: Hypervisor): (s: Step<string>)
    ensures s.driver == ValidateVMRef(d, hv).driver
    ensures s.result.Success? ==>
              s.driver.vm.Some? && hv.domainInterfaces.Success? &&
              |hv.domainInterfaces.value| >= 2 &&
              s.result.value == hv.domainInterfaces.value[1].mac
    ensures ValidateVMRef(d, hv).driver.vm.Some? && hv.domainInterfaces.Success? ==>
              s.result == MacOfInterfaces(hv.domainInterfaces.value)
    ensures ValidateVMRef(d, hv).driver.vm.Some? && hv.domainInterfaces.Failure? ==>
              s.result == Failure(hv.domainInterfaces.error)
    ensures ValidateVMRef(d, hv).result.Failure? ==> s.result == Failure(ConnectionRefused)
  {
    var v := ValidateVMRef(d, hv);
    if v.result.Failure? then Step(v.driver, Failure(v.result.error))
    else if v.driver.vm.None? then Step(v.driver, Failure(NoDomainHandle))
    else match hv.domainInterfaces
      case Failure(e) => Step(v.driver, Failure(e))
      case Success(ifaces) => Step(v.driver, MacOfInterfaces(ifaces))
  }

  /** `getIPByMacFromSettings`: the live DHCP leases of the private network,
      reached through the session. */
  function LiveLookup(d: Driver, hv: Hypervisor, mac: string): (s: Step<string>)
    ensures s.driver == GetConn(d, hv).driver
    ensures s.result.Success? <==> (d.connected || hv.reachable) && hv.dhcpLeases.Success?
    ensures s.result.Success? ==> s.result.value == SelectLease(hv.dhcpLeases.value, mac)
    ensures !(d.connected || hv.reachable) ==> s.result == Failure(ConnectionRefused)
    ensures (d.connected || hv.reachable) && hv.dhcpLeases.Failure? ==>
              s.result == Failure(hv.dhcpLeases.error)
  {
    var c := GetConn(d, hv);
    if c.result.Failure? then Step(c.driver, Failure(c.result.error))
    else match hv.dhcpLeases
      case Failure(e) => Step(c.driver, Failure(e))
      case Success(leases) => Step(c.driver, Success(SelectLease(leases, mac)))
  }

  /** The address a caller that ignores the error sees. */
  function IpOf(r: Result<string, Error>): string
  {
    if r.Success? then r.value else ""
  }

  /** `GetIP`: find the private MAC, try the lease file first and the live
      leases only when the file gave no address (an unreadable or malformed
      file included). The error returned is that of the last source tried, and
      the cached address is overwritten only by a non-empty address. */
  function GetIP(d: Driver, hv: Hypervisor): (s: Step<string>)
    ensures var m := GetMAC(d, hv);
            m.result.Failure? ==> s == Step(m.driver, Failure(m.result.error))
    ensures var m := GetMAC(d, hv);
            m.result.Success? ==>
              var file := LeaseFileLookup(hv.files, d.privateNetwork, m.result.value);
              if IpOf(file) != "" then s.result == file
              else s.result == LiveLookup(m.driver, hv, m.result.value).result
    ensures s.driver.ipAddress == (if IpOf(s.result) != "" then IpOf(s.result) else d.ipAddress)
    ensures SameConfig(d, s.driver)
    ensures s.driver.vm == ValidateVMRef(d, hv).driver.vm
    ensures d.connected ==> s.driver.connected
    ensures s.driver.connected ==> d.connected || hv.reachable
  {
    var m := GetMAC(d, hv);
    if m.result.Failure? then Step(m.driver, Failure(m.result.error))
    else
      var mac := m.result.value;
      var file := LeaseFileLookup(hv.files, m.driver.privateNetwork, mac);
      var found := if IpOf(file) == "" then LiveLookup(m.driver, hv, mac) else Step(m.driver, file);
      var ip := IpOf(found.result);
      Step(if ip != "" then found.driver.(ipAddress := ip) else found.driver, found.result)
  }

  /** The live leases are consulted only on a lease-file miss: when the file
      gives an address, the live leases (and whether they can be reached) do
      not matter. */
  lemma LiveLeasesIgnoredOnFileHit(d: Driver, hv: Hypervisor, leases: Result<seq<Lease>, Error>)
    requires GetMAC(d, hv).result.Success?
    requires IpOf(LeaseFileLookup(hv.files, d.privateNetwork, GetMAC(d, hv).result.value)) != ""
    ensures GetIP(d, hv) == GetIP(d, hv.(dhcpLeases := leases))
    ensures GetIP(d, hv).result == LeaseFileLookup(hv.files, d.privateNetwork, GetMAC(d, hv).result.value)
  {
  }

  /** On a lease-file miss the answer is exactly the live lookup's, even when
      the file could not be read: the file's error is dropped. */
  lemma FileErrorFallsBackToLive(d: Driver, hv: Hypervisor)
    requires GetMAC(d, hv).result.Success?
    requires LeaseFileLookup(hv.files, d.privateNetwork, GetMAC(d, hv).result.value).Failure?
    ensures GetIP(d, hv).result == LiveLookup(GetMAC(d, hv).driver, hv, GetMAC(d, hv).result.value).result
  {
  }

  const DockerPort := ":2376"
  const UrlScheme := "tcp://"

  /** `GetURL`: the Docker endpoint of the address `GetIP` finds; no address
      yields the empty URL without an error. */
  function GetURL(d: Driver, hv: Hypervisor): (s: Step<string>)
    ensures s.driver == GetIP(d, hv).driver
    ensures s.result.Failure? <==> GetIP(d, hv).result.Failure?
    ensures s.result.Failure? ==> s.result == GetIP(d, hv).result
    ensures s.result == Success("") <==> GetIP(d, hv).result == Success("")
  {
    var g := GetIP(d, hv);
    if g.result.Failure? then g
    else if g.result.value == "" then Step(g.driver, Success(""))
    else Step(g.driver, Success(UrlScheme + g.result.value + DockerPort))
  }

  /** Reads the host back out of a URL of the form `tcp://<host>:2376`. */
  function HostOfURL(url: string): Option<string>
  {
    if |url| >= |UrlScheme| + |DockerPort| && url[..|UrlScheme|] == UrlScheme &&
       url[|url| - |DockerPort|..] == DockerPort
    then Some(url[|UrlScheme|..|url| - |DockerPort|])
    else Option.None
  }

  /** A non-empty URL always carries exactly the address `GetIP` found. */
  lemma URLCarriesAddress(d: Driver, hv: Hypervisor)
    requires GetURL(d, hv).result.Success? && GetURL(d, hv).result.value != ""
    ensures GetIP(d, hv).result.Success?
    ensures HostOfURL(GetURL(d, hv).result.value) == Some(GetIP(d, hv).result.value)
  {
    var ip := GetIP(d, hv).result.value;
    var url := UrlScheme + ip + DockerPort;
    assert url[..|UrlScheme|] == UrlScheme;
    assert url[|url| - |DockerPort|..] == DockerPort;
    assert url[|UrlScheme|..|url| - |DockerPort|] == ip;
  }
}

=== FILE: leases.dfy ===
/** The two sources of a MAC-to-IP mapping: the dnsmasq lease file of the
    private network and the network's live DHCP leases. */
module Leases {
  import opened Wrappers
  import opened Text
  import opened Types

  const LeaseDir := "/var/lib/libvirt/dnsmasq/"
  const LeaseSuffix := ".leases"

  /** Path of the dnsmasq lease file of a libvirt network. The network's name
      can be read back from the path, so different networks never share a
      lease file. */
  function LeaseFilePath(network: string): (path: string)
    ensures |path| == |LeaseDir| + |network| + |LeaseSuffix|
    ensures path[..|LeaseDir|] == LeaseDir
    ensures path[|path| - |LeaseSuffix|..] == LeaseSuffix
    ensures path[|LeaseDir|..|path| - |LeaseSuffix|] == network
  {
    LeaseDir + network + LeaseSuffix
  }

  /** Distinct networks have distinct lease files. */
  lemma LeaseFilesAreDistinct(a: string, b: string)
    requires a != b
    ensures LeaseFilePath(a) != LeaseFilePath(b)
  {
  }

  /** The single-space separated fields of a lease line. */
  function Fields(line: string): seq<string>
  {
    Split(line, ' ')
  }

  /** A non-empty line with fewer than three fields. */
  predicate Malformed(line: string)
  {
    |line| > 0 && |Fields(line)| < 3
  }

  /** A well-formed line whose second field is `mac` up to case. */
  predicate Matches(line: string, mac: string)
  {
    |line| > 0 && |Fields(line)| >= 3 && ToLower(Fields(line)[1]) == ToLower(mac)
  }

  /** Every line before index `k` is passed over by the scan: it is empty or
      well-formed with another MAC. */
  predicate PassedBefore(lines: seq<string>, mac: string, k: int)
  {
    forall j :: 0 <= j < k && j < |lines| ==> !Malformed(lines[j]) && !Matches(lines[j], mac)
  }

  /** The lease-file scan over the lines of the file: the first line that is
      malformed or matches decides the outcome; if every line is passed over
      the answer is the empty address without an error. */
  function ScanLines(lines: seq<string>, mac: string): (r: Result<string, Error>)
    ensures PassedBefore(lines, mac, |lines|) ==> r == Success("")
    ensures forall k | 0 <= k < |lines| && PassedBefore(lines, mac, k) && Malformed(lines[k]) ::
              r == Failure(MalformedLeaseFile)
    ensures forall k | 0 <= k < |lines| && PassedBefore(lines, mac, k) && Matches(lines[k], mac) ::
              r == Success(Fields(lines[k])[2])
    decreases |lines|
  {
    if |lines| == 0 then Success("")
    else
      var line := lines[0];
      if |line| == 0 then ScanLines(lines[1..], mac)
      else if |Fields(line)| < 3 then Failure(MalformedLeaseFile)
      else if ToLower(Fields(line)[1]) == ToLower(mac) then Success(Fields(line)[2])
      else ScanLines(lines[1..], mac)
  }

  /** Either every line is passed over, or there is a first line that is not. */
  lemma {:induction false} FirstDecidingLine(lines: seq<string>, mac: string)
    ensures PassedBefore(lines, mac, |lines|) ||
            exists k :: 0 <= k < |lines| && PassedBefore(lines, mac, k) &&
                        (Malformed(lines[k]) || Matches(lines[k], mac))
    decreases |lines|
  {
    if |lines| > 0 && !PassedBefore(lines, mac, |lines|) {
      var n := |lines| - 1;
      FirstDecidingLine(lines[..n], mac);
      if PassedBefore(lines[..n], mac, n) {
        assert PassedBefore(lines, mac, n);
      } else {
        var k :| 0 <= k < n && PassedBefore(lines[..n], mac, k) &&
                 (Malformed(lines[..n][k]) || Matches(lines[..n][k], mac));
        assert PassedBefore(lines, mac, k);
      }
    }
  }

  /** A malformed line ruins the whole file even when a matching line comes
      after it; an empty line before it is no excuse. */
  lemma MalformedBeforeMatchFails(lines: seq<string>, mac: string, k: nat, m: nat)
    requires k < m < |lines|
    requires PassedBefore(lines, mac, k) && Malformed(lines[k])
    requires Matches(lines[m], mac)
    ensures ScanLines(lines, mac) == Failure(MalformedLeaseFile)
  {
  }

  /** The outcome is one of exactly three kinds: the empty address, the
      malformed-file error, or the third field of a matching line. */
  lemma ScanOutcomes(lines: seq<string>, mac: string)
    ensures var r := ScanLines(lines, mac);
            r == Success("") || r == Failure(MalformedLeaseFile) ||
            exists k :: 0 <= k < |lines| && Matches(lines[k], mac) && r == Success(Fields(lines[k])[2])
  {
    FirstDecidingLine(lines, mac);
  }

  /** `getIPByMACFromLeaseFile`: read the private network's lease file (an
      unreadable file is an error) and scan its newline-separated lines. */
  function LeaseFileLookup(files: map<string, string>, network: string, mac: string)
    : (r: Result<string, Error>)
    ensures LeaseFilePath(network) !in files ==> r.Failure? && r.error.External?
    ensures LeaseFilePath(network) in files ==>
              r == ScanLines(Split(files[LeaseFilePath(network)], '\n'), mac)
  {
    var path := LeaseFilePath(network);
    if path !in files then Failure(External("open " + path + ": no such file or directory"))
    else ScanLines(Split(files[path], '\n'), mac)
  }

  /** The Go loop of `getIPByMACFromLeaseFile` over the file contents, with its
      early returns; it computes the same answer as the recursive scan. */
  method ScanLeaseFile(data: string, mac: string) returns (r: Result<string, Error>)
    ensures r == ScanLines(Split(data, '\n'), mac)
  {
    var lines := Split(data, '\n');
    var i := 0;
    while i < |lines|
      invariant 0 <= i <= |lines|
      invariant ScanLines(lines[i..], mac) == ScanLines(lines, mac)
    {
      var line := lines[i];
      assert lines[i..][0] == line && lines[i..][1..] == lines[i + 1..];
      if |line| == 0 {
        i := i + 1;
        continue;
      }
      var entries := Split(line, ' ');
      if |entries| < 3 {
        return Failure(MalformedLeaseFile);
      }
      if ToLower(entries[1]) == ToLower(mac) {
        return Success(entries[2]);
      }
      i := i + 1;
    }
    return Success("");
  }

  /** Lease `i` matches `mac` exactly and no later lease does. */
  predicate LastMatch(leases: seq<Lease>, mac: string, i: int)
  {
    0 <= i < |leases| && leases[i].mac == mac &&
    forall j :: i < j < |leases| ==> leases[j].mac != mac
  }

  /** The address chosen among the live leases: that of the last lease whose
      MAC equals `mac` exactly (case matters), or the empty address. */
  function SelectLease(leases: seq<Lease>, mac: string): (ip: string)
    ensures (forall i :: 0 <= i < |leases| ==> leases[i].mac != mac) ==> ip == ""
    ensures forall i | LastMatch(leases, mac, i) :: ip == leases[i].ipAddr
    decreases |leases|
  {
    if |leases| == 0 then ""
    else
      var n := |leases| - 1;
      if leases[n].mac == mac then leases[n].ipAddr
      else
        assert forall i | LastMatch(leases, mac, i) :: LastMatch(leases[..n], mac, i);
        SelectLease(leases[..n], mac)
  }

  /** The Go loop of `getIPByMacFromSettings`: a forward scan without `break`
      that overwrites the address on every match, so the last match wins. */
  method SelectLeaseLoop(leases: seq<Lease>, mac: string) returns (ipAddr: string)
    ensures ipAddr == SelectLease(leases, mac)
  {
    ipAddr := "";
    for i := 0 to |leases|
      invariant ipAddr == SelectLease(leases[..i], mac)
    {
      assert leases[..i + 1][..i] == leases[..i];
      if mac == leases[i].mac {
        ipAddr := leases[i].ipAddr;
      }
    }
    assert leases[..|leases|] == leases;
  }

  /** The lease file is matched regardless of case: a query in lower case
      finds an entry written in upper case, whatever else the entry holds,
      and the empty line left by the final newline is never reached. */
  lemma MixedCaseMacResolves(network: string, expiry: string, ip: string, host: string)
    requires ' ' !in expiry && ' ' !in ip && ' ' !in host
    requires '\n' !in expiry && '\n' !in ip && '\n' !in host
    ensures var line := Join([expiry, "AA:BB:CC:DD:EE:FF", ip, host], ' ');
            var files := map[LeaseFilePath(network) := Join([line, ""], '\n')];
            LeaseFileLookup(files, network, "aa:bb:cc:dd:ee:ff") == Success(ip)
  {
    var mac := "aa:bb:cc:dd:ee:ff";
    var fields := [expiry, "AA:BB:CC:DD:EE:FF", ip, host];
    var line := Join(fields, ' ');
    SplitJoin(fields, ' ');
    JoinKeepsOut(fields, ' ', '\n');
    var lines := [line, ""];
    SplitJoin(lines, '\n');
    assert ToLower("AA:BB:CC:DD:EE:FF") == ToLower(mac);
    assert Matches(lines[0], mac);
    assert PassedBefore(lines, mac, 0);
  }

  /** A line without spaces ahead of a matching entry makes the lookup fail. */
  lemma GarbageLineSpoilsFile(network: string, garbage: string, entry: string, mac: string)
    requires |garbage| > 0 && ' ' !in garbage && '\n' !in garbage && '\n' !in entry
    requires Matches(entry, mac)
    ensures var files := map[LeaseFilePath(network) := Join([garbage, entry], '\n')];
            LeaseFileLookup(files, network, mac) == Failure(MalformedLeaseFile)
  {
    var lines := [garbage, entry];
    SplitWithoutSeparator(garbage, ' ');
    SplitJoin(lines, '\n');
    assert Malformed(lines[0]);
    assert PassedBefore(lines, mac, 0);
  }
}

=== FILE: lifecycle.dfy ===
/** The lifecycle operations: `Stop`, `Start` and `Restart` with their poll
    loops, and the one-shot `Kill` and `Remove`. Each takes the environment
    at the time of the call (`now`) and, where it polls, the environment at
    each poll (`later`). */
module Lifecycle {
  import opened Wrappers
  import opened Types
  import opened Session
  import opened Discovery
  import opened Polling

  /** Poll budgets of `Stop` and `Start`. */
  const StopPolls: nat := 90
  const StartPolls: nat := 350

  /** What a lifecycle operation leaves behind: the driver, the error it
      returns (or none), and how many polls it made. */
  datatype Outcome = Outcome(driver: Driver, result: Result<(), Error>, polls: nat)

  predicate ObservedStopped(r: Result<MachineState, Error>)
  {
    r == Success(Stopped)
  }

  predicate ObservedIP(r: Result<string, Error>)
  {
    IpOf(r) != ""
  }

  /** The state query `Stop` makes before deciding whether to shut down. */
  function StopProbe(d: Driver, now: Hypervisor): Step<MachineState>
  {
    GetState(ValidateVMRef(d, now).driver, now)
  }

  /** `Stop` asked for a graceful shutdown and libvirt accepted the request. */
  predicate ShutdownSent(d: Driver, now: Hypervisor)
  {
    var probe := StopProbe(d, now);
    probe.result.Success? && probe.result.value != Stopped && now.shutdown.None?
  }

  /** Stop's poll `j`, counted from the first poll after the shutdown
      request, observes the stopped state. */
  predicate StoppedAt(d: Driver, later: nat -> Hypervisor, j: nat)
  {
    HitAt(GetState, ObservedStopped, d, later, 0, j)
  }

  /** With the handle loaded, state polls leave the driver exactly as it was:
      the handle is kept and nothing else in the record changes. */
  lemma {:induction false} StatePollsKeepDriver(d: Driver, later: nat -> Hypervisor, from: nat, to: nat)
    requires d.vm.Some? && from <= to
    ensures DriverAt(GetState, d, later, from, to) == d
    decreases (to as int) - (from as int)
  {
    if from < to {
      StatePollsKeepDriver(d, later, from + 1, to);
    }
  }

  /** The wait after the shutdown request: at most 90 state polls, ending
      with success at the first poll that sees the domain stopped and with
      the error that points to the kill command when none does. */
  function AwaitStopped(d: Driver, later: nat -> Hypervisor): (o: Outcome)
    ensures o.polls <= StopPolls
    ensures o.result.Success? <==> exists j :: 0 <= j < StopPolls && StoppedAt(d, later, j)
    ensures o.result.Success? ==>
              0 < o.polls && StoppedAt(d, later, o.polls - 1) &&
              forall j :: 0 <= j < o.polls - 1 ==> !StoppedAt(d, later, j)
    ensures o.result.Failure? ==> o.result == Failure(ShutdownTimeout) && o.polls == StopPolls
    ensures o.driver == DriverAt(GetState, d, later, 0, o.polls)
    ensures d.vm.Some? ==> o.driver == d
  {
    var p := PollUntil(GetState, ObservedStopped, d, later, 0, StopPolls);
    assert d.vm.Some? ==> DriverAt(GetState, d, later, 0, p.polls) == d by {
      if d.vm.Some? {
        StatePollsKeepDriver(d, later, 0, p.polls);
      }
    }
    assert p.found ==> exists j :: 0 <= j < StopPolls && StoppedAt(d, later, j) by {
      if p.found {
        var j :| 0 <= j < StopPolls && HitAt(GetState, ObservedStopped, d, later, 0, j);
        assert StoppedAt(d, later, j);
      }
    }
    Outcome(p.driver, if p.found then Success(()) else Failure(ShutdownTimeout), p.polls)
  }

  /** `Stop`: nothing to do when the domain is already stopped; otherwise a
      graceful shutdown request followed by the wait. Errors of the handle
      repair, of the first state query and of the request itself are returned
      before any poll. */
  function Stop(d: Driver, now: Hypervisor, later: nat -> Hypervisor): (o: Outcome)
    ensures o.polls <= StopPolls
    ensures ValidateVMRef(d, now).result.Failure? ==> o.result == Failure(ConnectionRefused)
    ensures StopProbe(d, now).result.Failure? ==> o.result == Failure(StopProbe(d, now).result.error)
    ensures StopProbe(d, now).result == Success(Stopped) ==> o.result.Success? && o.polls == 0
    ensures (StopProbe(d, now).result.Success? && StopProbe(d, now).result.value != Stopped &&
             now.shutdown.Some?) ==> o.result == Failure(now.shutdown.value) && o.polls == 0
    ensures ShutdownSent(d, now) ==> o == AwaitStopped(StopProbe(d, now).driver, later)
    ensures o.driver == StopProbe(d, now).driver
    ensures o.result.Success? ==> o.driver.vm.Some?
  {
    var v := ValidateVMRef(d, now);
    if v.result.Failure? then Outcome(v.driver, Failure(v.result.error), 0)
    else
      var probe := GetState(v.driver, now);
      if probe.result.Failure? then Outcome(probe.driver, Failure(probe.result.error), 0)
      else if probe.result.value == Stopped then Outcome(probe.driver, Success(()), 0)
      else if now.shutdown.Some? then Outcome(probe.driver, Failure(now.shutdown.value), 0)
      else AwaitStopped(probe.driver, later)
  }

  /** An already stopped domain is not shut down again: the outcome of the
      shutdown request and everything after it play no part. */
  lemma AlreadyStoppedSkipsShutdown(d: Driver, now: Hypervisor, later: nat -> Hypervisor,
                                    shutdown: Option<Error>, later': nat -> Hypervisor)
    requires StopProbe(d, now).result == Success(Stopped)
    ensures Stop(d, now, later) == Stop(d, now.(shutdown := shutdown), later')
    ensures Stop(d, now, later).result.Success?
  {
  }

  /** The timeout error tells the operator to use the kill command. */
  lemma TimeoutPointsToKill()
    ensures var m := Message(ShutdownTimeout);
            exists i :: 0 <= i <= |m| - 4 && m[i..][..4] == "kill"
  {
    var m := Message(ShutdownTimeout);
    assert m[42..][..4] == "kill";
  }

  /** `Start` powered the domain on: the handle was loaded and libvirt
      accepted the request. */
  predicate PoweredOn(d: Driver, now: Hypervisor)
  {
    var v := ValidateVMRef(d, now);
    v.result.Success? && v.driver.vm.Some? && now.powerOn.None?
  }

  /** Start's poll `j` finds an address. */
  predicate IpAt(d: Driver, later: nat -> Hypervisor, j: nat)
  {
    HitAt(GetIP, ObservedIP, d, later, 0, j)
  }

  /** Some poll within Start's budget finds an address. */
  predicate IpFound(d: Driver, later: nat -> Hypervisor)
  {
    exists j :: 0 <= j < StartPolls && IpAt(d, later, j)
  }

  /** With the handle loaded, address polls keep it loaded, keep the
      configuration and never close an open session; only the cached address
      and the session flag can change. */
  lemma {:induction false} IpPollsKeepHandle(d: Driver, later: nat -> Hypervisor, from: nat, to: nat)
    requires d.vm.Some? && from <= to
    ensures var e := DriverAt(GetIP, d, later, from, to);
            e.vm == d.vm && SameConfig(d, e) && (d.connected ==> e.connected)
    decreases (to as int) - (from as int)
  {
    if from < to {
      IpPollsKeepHandle(GetIP(d, later(from)).driver, later, from + 1, to);
    }
  }

  /** Polls that all come back without an address leave the cached address
      as it was: `GetIP` writes it only when it finds one. */
  lemma {:induction false} FruitlessPollsKeepAddress(d: Driver, later: nat -> Hypervisor, from: nat, to: nat)
    requires from <= to
    requires forall j :: from <= j < to ==> !HitAt(GetIP, ObservedIP, d, later, from, j)
    ensures DriverAt(GetIP, d, later, from, to).ipAddress == d.ipAddress
    decreases (to as int) - (from as int)
  {
    if from < to {
      var next := GetIP(d, later(from)).driver;
      var from' := from + 1;
      assert !HitAt(GetIP, ObservedIP, d, later, from, from);
      forall j | from' <= j < to
        ensures !HitAt(GetIP, ObservedIP, next, later, from', j)
      {
        SkipFirstPoll(GetIP, ObservedIP, d, later, from, j);
      }
      FruitlessPollsKeepAddress(next, later, from', to);
    }
  }

  /** The wait after power-on: at most 350 address polls, stopping at the
      first that finds an address. The wait succeeds whether or not an
      address turns up; when none does, the cached address is the one from
      before the wait. */
  function AwaitIP(d: Driver, later: nat -> Hypervisor): (o: Outcome)
    ensures o.result.Success?
    ensures 0 < o.polls <= StartPolls
    ensures forall j :: 0 <= j < o.polls - 1 ==> !IpAt(d, later, j)
    ensures IpFound(d, later) ==> IpAt(d, later, o.polls - 1)
    ensures IpFound(d, later) ==> o.driver == AnswerAt(GetIP, d, later, 0, o.polls - 1).driver
    ensures !IpFound(d, later) ==> o.polls == StartPolls
    ensures d.vm.Some? ==>
              o.driver.vm == d.vm && SameConfig(d, o.driver) && (d.connected ==> o.driver.connected)
    ensures o.driver == DriverAt(GetIP, d, later, 0, o.polls)
    ensures !IpFound(d, later) ==> o.driver.ipAddress == d.ipAddress
  {
    var p := PollUntil(GetIP, ObservedIP, d, later, 0, StartPolls);
    assert d.vm.Some? ==>
             var e := DriverAt(GetIP, d, later, 0, p.polls);
             e.vm == d.vm && SameConfig(d, e) && (d.connected ==> e.connected) by {
      if d.vm.Some? {
        IpPollsKeepHandle(d, later, 0, p.polls);
      }
    }
    assert IpFound(d, later) <==> p.found by {
      if j :| 0 <= j < StartPolls && IpAt(d, later, j) {
        assert HitAt(GetIP, ObservedIP, d, later, 0, j);
      }
      if p.found {
        assert IpAt(d, later, p.polls - 1);
      }
    }
    assert !p.found ==> p.driver.ipAddress == d.ipAddress by {
      if !p.found {
        FruitlessPollsKeepAddress(d, later, 0, p.polls);
      }
    }
    Outcome(p.driver, Success(()), p.polls)
  }

  /** The address the wait ends on is the one the driver caches. */
  lemma AwaitIPCachesAddress(d: Driver, later: nat -> Hypervisor)
    requires IpFound(d, later)
    ensures var o := AwaitIP(d, later);
            o.driver.ipAddress != "" &&
            o.driver.ipAddress == IpOf(AnswerAt(GetIP, d, later, 0, o.polls - 1).result)
  {
    var o := AwaitIP(d, later);
    var e := DriverAt(GetIP, d, later, 0, o.polls - 1);
    var hv := later(o.polls - 1);
    assert ObservedIP(GetIP(e, hv).result);
  }

  /** `Start`: repair the handle and power the domain on, then wait for an
      address. Once the domain is powered on, `Start` succeeds. */
  function Start(d: Driver, now: Hypervisor, later: nat -> Hypervisor): (o: Outcome)
    ensures o.result.Success? <==> PoweredOn(d, now)
    ensures ValidateVMRef(d, now).result.Failure? ==> o.result == Failure(ConnectionRefused)
    ensures (ValidateVMRef(d, now).result.Success? && ValidateVMRef(d, now).driver.vm.Some? &&
             now.powerOn.Some?) ==> o.result == Failure(now.powerOn.value)
    ensures !PoweredOn(d, now) ==> o.polls == 0
    ensures o.polls <= StartPolls
    ensures PoweredOn(d, now) ==> o == AwaitIP(ValidateVMRef(d, now).driver, later)
    ensures !PoweredOn(d, now) ==> o.driver == ValidateVMRef(d, now).driver
    ensures PoweredOn(d, now) ==> o.driver.vm == ValidateVMRef(d, now).driver.vm
  {
    var v := ValidateVMRef(d, now);
    if v.result.Failure? then Outcome(v.driver, Failure(v.result.error), 0)
    else if v.driver.vm.None? then Outcome(v.driver, Failure(NoDomainHandle), 0)
    else if now.powerOn.Some? then Outcome(v.driver, Failure(now.powerOn.value), 0)
    else AwaitIP(v.driver, later)
  }

  /** `Restart`: `Stop`, then `Start` only if `Stop` returned no error. A
      successful `Stop` leaves the handle loaded, so the restart succeeds
      exactly when the stop succeeds and libvirt accepts the power-on; a
      failed stop's error is the restart's error. */
  function Restart(d: Driver, stopNow: Hypervisor, stopLater: nat -> Hypervisor,
                   startNow: Hypervisor, startLater: nat -> Hypervisor): (o: Outcome)
    ensures o.result.Success? <==>
              Stop(d, stopNow, stopLater).result.Success? && startNow.powerOn.None?
    ensures Stop(d, stopNow, stopLater).result.Failure? ==>
              o.result == Stop(d, stopNow, stopLater).result
    ensures o.polls <= StartPolls
    ensures Stop(d, stopNow, stopLater).result.Failure? ==> o == Stop(d, stopNow, stopLater)
    ensures Stop(d, stopNow, stopLater).result.Success? ==>
              o == Start(Stop(d, stopNow, stopLater).driver, startNow, startLater)
  {
    var s := Stop(d, stopNow, stopLater);
    if s.result.Failure? then s else Start(s.driver, startNow, startLater)
  }

  /** A failed `Stop` means `Start` is never attempted: what the environment
      would have answered to `Start` makes no difference. A successful `Stop`
      leaves the handle loaded, so a restart succeeds exactly when the stop
      succeeds and libvirt accepts the power-on request. */
  lemma RestartStartsOnlyAfterStop(d: Driver, stopNow: Hypervisor, stopLater: nat -> Hypervisor,
                                   startNow: Hypervisor, startLater: nat -> Hypervisor,
                                   startNow': Hypervisor, startLater': nat -> Hypervisor)
    ensures Stop(d, stopNow, stopLater).result.Failure? ==>
              Restart(d, stopNow, stopLater, startNow, startLater) ==
              Restart(d, stopNow, stopLater, startNow', startLater')
    ensures Restart(d, stopNow, stopLater, startNow, startLater).result.Success? <==>
              Stop(d, stopNow, stopLater).result.Success? && startNow.powerOn.None?
  {
  }

  /** `Kill`: an immediate forced power-off, without polling. */
  function Kill(d: Driver, now: Hypervisor): (s: Step<()>)
    ensures s.driver == ValidateVMRef(d, now).driver
    ensures s.result.Success? <==>
              ValidateVMRef(d, now).result.Success? && s.driver.vm.Some? && now.destroy.None?
    ensures s.driver.vm.Some? && now.destroy.Some? ==> s.result == Failure(now.destroy.value)
    ensures ValidateVMRef(d, now).result.Failure? ==> s.result == Failure(ConnectionRefused)
  {
    var v := ValidateVMRef(d, now);
    if v.result.Failure? then v
    else if v.driver.vm.None? then Step(v.driver, Failure(NoDomainHandle))
    else match now.destroy
      case Some(e) => Step(v.driver, Failure(e))
      case None => Step(v.driver, Success(()))
  }

  /** Killing again against the same host answers changes nothing: the
      handle the first call repaired is reused and the power-off is asked
      for once more with the same answer. */
  lemma KillIsRepeatable(d: Driver, now: Hypervisor)
    ensures Kill(Kill(d, now).driver, now) == Kill(d, now)
  {
  }

  /** `Remove`: delete the directory of the relocated disk and boot images
      (`/management-state/node/nodes/<machine>_persistant`), force the
      power-off while ignoring its error, then undefine the domain. */
  function Remove(d: Driver, now: Hypervisor): (s: Step<()>)
    ensures s.driver == ValidateVMRef(d, now).driver
    ensures s.result.Success? <==>
              ValidateVMRef(d, now).result.Success? && now.removeStorage.None? &&
              s.driver.vm.Some? && now.undefine.None?
    ensures ValidateVMRef(d, now).result.Failure? ==> s.result == Failure(ConnectionRefused)
    ensures ValidateVMRef(d, now).result.Success? && now.removeStorage.Some? ==>
              s.result == Failure(now.removeStorage.value)
    ensures ValidateVMRef(d, now).result.Success? && now.removeStorage.None? &&
            s.driver.vm.Some? && now.undefine.Some? ==>
              s.result == Failure(now.undefine.value)
  {
    var v := ValidateVMRef(d, now);
    if v.result.Failure? then v
    else if now.removeStorage.Some? then Step(v.driver, Failure(now.removeStorage.value))
    else if v.driver.vm.None? then Step(v.driver, Failure(NoDomainHandle))
    else match now.undefine
      case Some(e) => Step(v.driver, Failure(e))
      case None => Step(v.driver, Success(()))
  }

  /** The forced power-off inside `Remove` cannot make it fail or succeed. */
  lemma RemoveIgnoresDestroy(d: Driver, now: Hypervisor, destroy: Option<Error>)
    ensures Remove(d, now) == Remove(d, now.(destroy := destroy))
  {
  }
}

=== FILE: network.dfy ===
/** `validatePrivateNetwork`: make sure the private network the driver
    attaches every domain to exists, is configured and is running. */
module Network {
  import opened Wrappers
  import opened Types
  import opened Session

  /** The fixed addressing of a private network the driver defines itself. */
  const GatewayAddress := "192.168.42.1"
  const Netmask := "255.255.255.0"
  const DhcpStart := "192.168.42.2"
  const DhcpEnd := "192.168.42.254"

  /** The descriptor of a newly defined private network called `name`. It
      passes the configuration check, and its gateway address differs from
      both ends of its DHCP range. */
  function DefinedNetwork(name: string): (desc: NetworkDesc)
    ensures desc.name == name
    ensures Configured(desc)
    ensures desc.address != desc.rangeStart && desc.address != desc.rangeEnd
  {
    NetworkDesc(name, GatewayAddress, Netmask, DhcpStart, DhcpEnd)
  }

  /** The configuration check made on an existing network: only the `<ip>`
      element's address attribute is inspected, not the DHCP range. */
  predicate Configured(desc: NetworkDesc)
  {
    desc.address != ""
  }

  /** The configuration check looks at the address and nothing else: two
      descriptors with the same address pass or fail together, whatever their
      names, netmasks and DHCP ranges, and one without an address fails. */
  lemma ConfiguredIgnoresRange(a: NetworkDesc, b: NetworkDesc)
    requires a.address == b.address
    ensures Configured(a) == Configured(b)
    ensures a.address == "" ==> !Configured(a)
  {
  }

  /** `validatePrivateNetwork`. An existing network must have an address and
      is started if inactive, the start's error being returned. A missing
      network is defined, set to autostart (whose error is ignored) and
      started; if the definition itself fails the function returns no
      error. */
  function ValidatePrivateNetwork(d: Driver, hv: Hypervisor): (s: Step<()>)
    ensures s.driver == GetConn(d, hv).driver
    ensures !(d.connected || hv.reachable) ==> s.result == Failure(ConnectionRefused)
    ensures (d.connected || hv.reachable) && hv.privateNetwork.Some? ==>
              var net := hv.privateNetwork.value;
              (net.desc.Failure? ==> s.result == Failure(net.desc.error)) &&
              (net.desc.Success? && !Configured(net.desc.value) ==>
                 s.result == Failure(MisconfiguredNetwork(d.privateNetwork))) &&
              (net.desc.Success? && Configured(net.desc.value) ==>
                 (s.result.Success? <==> net.active || net.start.None?)) &&
              (net.desc.Success? && Configured(net.desc.value) && !net.active && net.start.Some? ==>
                 s.result == Failure(net.start.value))
    ensures (d.connected || hv.reachable) && hv.privateNetwork.None? ==>
              (hv.defineNetwork.Some? ==> s.result.Success?) &&
              (hv.defineNetwork.None? ==>
                 (s.result.Success? <==> hv.startNewNetwork.None?) &&
                 (hv.startNewNetwork.Some? ==> s.result == Failure(hv.startNewNetwork.value)))
  {
    var c := GetConn(d, hv);
    if c.result.Failure? then Step(c.driver, Failure(c.result.error))
    else match hv.privateNetwork
      case Some(net) =>
        (match net.desc
         case Failure(e) => Step(c.driver, Failure(e))
         case Success(desc) =>
           if !Configured(desc) then Step(c.driver, Failure(MisconfiguredNetwork(d.privateNetwork)))
           else if !net.active && net.start.Some? then Step(c.driver, Failure(net.start.value))
           else Step(c.driver, Success(())))
      case None =>
        if hv.defineNetwork.Some? then Step(c.driver, Success(()))
        else match hv.startNewNetwork
          case Some(e) => Step(c.driver, Failure(e))
          case None => Step(c.driver, Success(()))
  }

  /** The autostart flag's outcome never affects the result. */
  lemma AutostartErrorIgnored(d: Driver, hv: Hypervisor, autostart: Option<Error>)
    ensures ValidatePrivateNetwork(d, hv) == ValidatePrivateNetwork(d, hv.(autostartNetwork := autostart))
  {
  }

  /** What the driver writes it can read back: a network it defined passes
      the check made on an existing network, and once that network is
      running a second validation succeeds without defining anything. */
  lemma DefinedNetworkRevalidates(d: Driver, hv: Hypervisor, start: Option<Error>)
    requires d.connected || hv.reachable
    requires hv.privateNetwork.None? && hv.defineNetwork.None? && hv.startNewNetwork.None?
    ensures ValidatePrivateNetwork(d, hv).result.Success?
    ensures Configured(DefinedNetwork(d.privateNetwork))
    ensures var hv' := hv.(privateNetwork := Some(NetworkRecord(Success(DefinedNetwork(d.privateNetwork)), true, start)));
            ValidatePrivateNetwork(ValidatePrivateNetwork(d, hv).driver, hv').result.Success?
  {
  }
}

=== FILE: polling.dfy ===
/** Bounded polling: a driver call repeated once per poll against the
    environment of that poll, until its answer satisfies a condition or the
    poll budget is used up. The Go driver writes this loop out twice (in
    `Stop` and in `Start`); sleeping between polls is not modelled. */
module Polling {
  import opened Wrappers
  import opened Types

  /** The driver after polls `from` up to (not including) `to`. */
  function DriverAt<T>(call: (Driver, Hypervisor) -> Step<T>, d: Driver,
                       later: nat -> Hypervisor, from: nat, to: nat): Driver
    requires from <= to
    decreases (to as int) - (from as int)
  {
    if from == to then d else DriverAt(call, call(d, later(from)).driver, later, from + 1, to)
  }

  /** What poll `j` answers, when polling started at `from` with driver `d`. */
  function AnswerAt<T>(call: (Driver, Hypervisor) -> Step<T>, d: Driver,
                       later: nat -> Hypervisor, from: nat, j: nat): Step<T>
    requires from <= j
  {
    call(DriverAt(call, d, later, from, j), later(j))
  }

  /** Poll `j` answers what the loop waits for. */
  predicate HitAt<T>(call: (Driver, Hypervisor) -> Step<T>, done: Result<T, Error> -> bool,
                     d: Driver, later: nat -> Hypervisor, from: nat, j: nat)
    requires from <= j
  {
    done(AnswerAt(call, d, later, from, j).result)
  }

  /** Polling from `from` is the first poll followed by polling from `from + 1`. */
  lemma SkipFirstPoll<T>(call: (Driver, Hypervisor) -> Step<T>, done: Result<T, Error> -> bool,
                         d: Driver, later: nat -> Hypervisor, from: nat, j: nat)
    requires from < j
    ensures DriverAt(call, d, later, from, j) == DriverAt(call, call(d, later(from)).driver, later, from + 1, j)
    ensures HitAt(call, done, d, later, from, j) == HitAt(call, done, call(d, later(from)).driver, later, from + 1, j)
  {
  }

  /** How a poll loop ended: the driver afterwards, whether the awaited answer
      came, and how many polls were made in all (counting those before `from`). */
  datatype Polled = Polled(driver: Driver, found: bool, polls: nat)

  /** Polls `from` up to `budget`. The loop stops at the first hit and makes
      no poll after it; without a hit it makes every poll of the budget. */
  function PollUntil<T>(call: (Driver, Hypervisor) -> Step<T>, done: Result<T, Error> -> bool,
                        d: Driver, later: nat -> Hypervisor, from: nat, budget: nat): (p: Polled)
    requires from <= budget
    ensures p.found <==> exists j :: from <= j < budget && HitAt(call, done, d, later, from, j)
    ensures p.found ==> from < p.polls <= budget && HitAt(call, done, d, later, from, p.polls - 1)
    ensures p.found ==> forall j :: from <= j < p.polls - 1 ==> !HitAt(call, done, d, later, from, j)
    ensures p.found ==> p.driver == AnswerAt(call, d, later, from, p.polls - 1).driver
    ensures !p.found ==> p.polls == budget
    ensures from <= p.polls && p.driver == DriverAt(call, d, later, from, p.polls)
    decreases (budget as int) - (from as int)
  {
    if from == budget then Polled(d, false, budget)
    else
      var answer := call(d, later(from));
      if done(answer.result) then
        assert HitAt(call, done, d, later, from, from);
        Polled(answer.driver, true, from + 1)
      else
        assert !HitAt(call, done, d, later, from, from);
        var p := PollUntil(call, done, answer.driver, later, from + 1, budget);
        assert p.found ==> exists j :: from <= j < budget && HitAt(call, done, d, later, from, j) by {
          if p.found {
            var j :| from + 1 <= j < budget && HitAt(call, done, answer.driver, later, from + 1, j);
            SkipFirstPoll(call, done, d, later, from, j);
          }
        }
        assert (exists j :: from <= j < budget && HitAt(call, done, d, later, from, j)) ==> p.found by {
          if j :| from <= j < budget && HitAt(call, done, d, later, from, j) {
            SkipFirstPoll(call, done, d, later, from, j);
          }
        }
        assert forall j | from < j < p.polls :: HitAt(call, done, d, later, from, j) == HitAt(call, done, answer.driver, later, from + 1, j) by {
          forall j | from < j < p.polls ensures HitAt(call, done, d, later, from, j) == HitAt(call, done, answer.driver, later, from + 1, j) {
            SkipFirstPoll(call, done, d, later, from, j);
          }
        }
        SkipFirstPoll(call, done, d, later, from, p.polls);
        p
  }
}

=== FILE: session.dfy ===
/** The libvirt session, the cached domain handle and the state query. */
module Session {
  import opened Wrappers
  import opened Types

  /** `getConn`: reuse the cached session, otherwise connect. A failed
      connection is reported with the fixed group-membership hint and is not
      cached, so the next call tries again. */
  function GetConn(d: Driver, hv: Hypervisor): (s: Step<()>)
    ensures s.result.Success? <==> d.connected || hv.reachable
    ensures s.result.Failure? ==> s.result.error == ConnectionRefused
    ensures s.driver == d.(connected := d.connected || hv.reachable)
  {
    if d.connected then Step(d, Success(()))
    else if !hv.reachable then Step(d, Failure(ConnectionRefused))
    else Step(d.(connected := true), Success(()))
  }

  /** Once a session is open it is reused: a second call succeeds without
      connecting, whatever the host would answer now, and changes nothing. */
  lemma SessionIsReused(d: Driver, hv: Hypervisor, hv': Hypervisor)
    requires GetConn(d, hv).result.Success?
    ensures GetConn(GetConn(d, hv).driver, hv') == Step(GetConn(d, hv).driver, Success(()))
  {
  }

  /** `validateVMRef`: the single repair point of the cached domain handle.
      A loaded handle is kept without asking libvirt; otherwise the domain is
      looked up by name. Only a connection failure is reported: a failed
      lookup is logged and swallowed, leaving the handle unloaded. */
  function ValidateVMRef(d: Driver, hv: Hypervisor): (s: Step<()>)
    ensures d.vm.Some? ==> s == Step(d, Success(()))
    ensures s.result.Failure? <==> d.vm.None? && !d.connected && !hv.reachable
    ensures s.result.Failure? ==> s.result.error == ConnectionRefused && s.driver == d
    ensures s.result.Success? ==>
              (s.driver.vm.Some? <==> d.vm.Some? || hv.lookupDomain.Success?)
    ensures d.vm.None? && s.driver.vm.Some? ==> s.driver.vm.value == hv.lookupDomain.value
    ensures SameConfig(d, s.driver) && s.driver.ipAddress == d.ipAddress
    ensures s.driver.vm.Some? ==> s.driver.connected || d.vm.Some?
  {
    if d.vm.Some? then Step(d, Success(()))
    else
      var c := GetConn(d, hv);
      if c.result.Failure? then Step(c.driver, Failure(c.result.error))
      else match hv.lookupDomain
        case Failure(_) => Step(c.driver, Success(()))
        case Success(dom) => Step(c.driver.(vm := Some(dom)), Success(())) 
  }

  /** Repairing the handle twice against the same host answers is the same
      as repairing it once, so a caller may repair again before each domain
      call. */
  lemma RepairIsIdempotent(d: Driver, hv: Hypervisor)
    ensures ValidateVMRef(ValidateVMRef(d, hv).driver, hv) == ValidateVMRef(d, hv)
  {
  }

  // libvirt's virDomainState codes
  const DOMAIN_NOSTATE := 0
  const DOMAIN_RUNNING := 1
  const DOMAIN_BLOCKED := 2
  const DOMAIN_PAUSED := 3
  const DOMAIN_SHUTDOWN := 4
  const DOMAIN_SHUTOFF := 5
  const DOMAIN_CRASHED := 6
  const DOMAIN_PMSUSPENDED := 7

  /** The switch of `GetState`: a total map from libvirt state codes to
      machine states. Each machine state is characterised by the exact set
      of codes that produce it; the transitional states are never reported. */
  function StateOfCode(code: int): (st: MachineState)
    ensures st == Stopped <==> code == DOMAIN_SHUTDOWN || code == DOMAIN_SHUTOFF
    ensures st == MachineState.Error <==> code == DOMAIN_BLOCKED || code == DOMAIN_CRASHED
    ensures st == Saved <==> code == DOMAIN_PMSUSPENDED
    ensures st == Running <==> code == DOMAIN_RUNNING
    ensures st == Paused <==> code == DOMAIN_PAUSED
    ensures st == MachineState.None <==> !(DOMAIN_RUNNING <= code <= DOMAIN_PMSUSPENDED)
    ensures st != Stopping && st != Starting && st != Timeout
  {
    if code == DOMAIN_NOSTATE then MachineState.None
    else if code == DOMAIN_RUNNING then Running
    else if code == DOMAIN_BLOCKED then MachineState.Error
    else if code == DOMAIN_PAUSED then Paused
    else if code == DOMAIN_SHUTDOWN then Stopped
    else if code == DOMAIN_CRASHED then MachineState.Error
    else if code == DOMAIN_PMSUSPENDED then Saved
    else if code == DOMAIN_SHUTOFF then Stopped
    else MachineState.None
  }

  /** `GetState`: repair the handle, ask libvirt for the native state and map
      it. Every failure is returned as an error (the Go code pairs it with
      `state.None`); a call on a never-loaded handle fails too. */
  function GetState(d: Driver, hv: Hypervisor): (s: Step<MachineState>)
    ensures s.driver == ValidateVMRef(d, hv).driver
    ensures s.result.Success? <==>
              ValidateVMRef(d, hv).driver.vm.Some? && hv.domainState.Success?
    ensures s.result.Success? ==> s.result.value == StateOfCode(hv.domainState.value)
    ensures ValidateVMRef(d, hv).result.Failure? ==> s.result == Failure(ConnectionRefused)
    ensures ValidateVMRef(d, hv).driver.vm.Some? && hv.domainState.Failure? ==>
              s.result == Failure(hv.domainState.error)
  {
    var v := ValidateVMRef(d, hv);
    if v.result.Failure? then Step(v.driver, Failure(v.result.error))
    else if v.driver.vm.None? then Step(v.driver, Failure(NoDomainHandle))
    else match hv.domainState
      case Failure(e) => Step(v.driver, Failure(e))
      case Success(code) => Step(v.driver, Success(StateOfCode(code)))
  }

  /** With a loaded handle, asking for the state changes nothing in the
      driver and depends on nothing but the native state code. */
  lemma GetStateOnLoadedHandle(d: Driver, hv: Hypervisor, hv': Hypervisor)
    requires d.vm.Some?
    requires hv.domainState == hv'.domainState
    ensures GetState(d, hv).driver == d
    ensures GetState(d, hv) == GetState(d, hv')
  {
  }

  /** A failed lookup is not an error: the handle simply stays unloaded, and
      the state query that follows fails for want of a handle. */
  lemma LookupFailureIsSwallowed(d: Driver, hv: Hypervisor)
    requires d.vm.None? && (d.connected || hv.reachable)
    requires hv.lookupDomain.Failure?
    ensures ValidateVMRef(d, hv).result.Success?
    ensures ValidateVMRef(d, hv).driver.vm.None?
    ensures GetState(d, hv).result == Failure(NoDomainHandle)
  {
  }
}

=== FILE: text.dfy ===
/** The two string primitives of Go's standard library that the lease-file
    resolver depends on: `strings.Split` with a one-character separator and
    `strings.ToLower` (restricted to ASCII). */
module Text {

  /** Number of occurrences of `c` in `s`. */
  function Count(s: string, c: char): nat
    decreases |s|
  {
    if |s| == 0 then 0 else (if s[0] == c then 1 else 0) + Count(s[1..], c)
  }

  /** `strings.Split(s, string(sep))`: the maximal separator-free pieces of `s`,
      in order. There is always one more piece than there are separators, so
      the empty string splits into one empty piece. */
  function Split(s: string, sep: char): (parts: seq<string>)
    ensures |parts| == Count(s, sep) + 1
    ensures forall i :: 0 <= i < |parts| ==> sep !in parts[i]
    decreases |s|
  {
    if |s| == 0 then [""]
    else
      var rest := Split(s[1..], sep);
      if s[0] == sep then [""] + rest
      else [[s[0]] + rest[0]] + rest[1..]
  }

  /** `strings.Join(parts, string(sep))`. */
  function Join(parts: seq<string>, sep: char): string
    decreases |parts|
  {
    if |parts| == 0 then ""
    else if |parts| == 1 then parts[0]
    else parts[0] + [sep] + Join(parts[1..], sep)
  }

  /** Joining the pieces back with the separator restores the input. */
  lemma {:induction false} JoinSplit(s: string, sep: char)
    ensures Join(Split(s, sep), sep) == s
    decreases |s|
  {
    if |s| > 0 {
      var rest := Split(s[1..], sep);
      JoinSplit(s[1..], sep);
      if s[0] == sep {
        assert Split(s, sep) == [""] + rest;
        assert ([""] + rest)[1..] == rest;
        assert s == [sep] + s[1..];
      } else {
        var parts := [[s[0]] + rest[0]] + rest[1..];
        assert Split(s, sep) == parts;
        if |rest| == 1 {
          assert Join(rest, sep) == rest[0];
          assert s == [s[0]] + s[1..];
        } else {
          assert parts[1..] == rest[1..];
          assert Join(rest, sep) == rest[0] + [sep] + Join(rest[1..], sep);
          assert Join(parts, sep) == [s[0]] + rest[0] + [sep] + Join(rest[1..], sep);
          assert s == [s[0]] + s[1..];
        }
      }
    }
  }

  /** A separator-free string is its own only piece. */
  lemma {:induction false} SplitWithoutSeparator(a: string, sep: char)
    requires sep !in a
    ensures Split(a, sep) == [a]
    decreases |a|
  {
    if |a| > 0 {
      assert sep !in a[1..] by {
        forall i | 0 <= i < |a[1..]| ensures a[1..][i] != sep {
          assert a[1..][i] == a[i + 1];
        }
      }
      SplitWithoutSeparator(a[1..], sep);
      assert a == [a[0]] + a[1..];
    }
  }

  /** Splitting at the first separator: a separator-free prefix becomes the
      first piece and the rest is split on its own. */
  lemma {:induction false} SplitAtSeparator(a: string, sep: char, b: string)
    requires sep !in a
    ensures Split(a + [sep] + b, sep) == [a] + Split(b, sep)
    decreases |a|
  {
    var s := a + [sep] + b;
    if |a| == 0 {
      assert s[0] == sep;
      assert s[1..] == b;
    } else {
      assert sep !in a[1..] by {
        forall i | 0 <= i < |a[1..]| ensures a[1..][i] != sep {
          assert a[1..][i] == a[i + 1];
        }
      }
      SplitAtSeparator(a[1..], sep, b);
      assert s[0] == a[0];
      assert s[1..] == a[1..] + [sep] + b;
      var rest := Split(s[1..], sep);
      assert rest == [a[1..]] + Split(b, sep);
      assert [a[0]] + a[1..] == a;
    }
  }

  /** The converse round trip: separator-free pieces survive a join and a
      split unchanged (there must be at least one piece, since splitting never
      yields none). */
  lemma {:induction false} SplitJoin(parts: seq<string>, sep: char)
    requires |parts| >= 1
    requires forall i :: 0 <= i < |parts| ==> sep !in parts[i]
    ensures Split(Join(parts, sep), sep) == parts
    decreases |parts|
  {
    if |parts| == 1 {
      SplitWithoutSeparator(parts[0], sep);
    } else {
      SplitJoin(parts[1..], sep);
      SplitAtSeparator(parts[0], sep, Join(parts[1..], sep));
      assert [parts[0]] + parts[1..] == parts;
    }
  }

  /** A character other than the separator that occurs in no piece does
      not occur in the joined string either. */
  lemma {:induction false} JoinKeepsOut(parts: seq<string>, sep: char, c: char)
    requires c != sep
    requires forall i :: 0 <= i < |parts| ==> c !in parts[i]
    ensures c !in Join(parts, sep)
    decreases |parts|
  {
    if |parts| > 1 {
      JoinKeepsOut(parts[1..], sep, c);
    }
  }

  /** Go's `unicode.ToLower` on the ASCII letters; every other character is
      left alone. */
  function LowerChar(c: char): char
  {
    if 'A' <= c <= 'Z' then (c as int - 'A' as int + 'a' as int) as char else c
  }

  /** `strings.ToLower`, character by character: an upper-case ASCII letter
      becomes its lower-case partner, every other character stays. */
  function ToLower(s: string): (r: string)
    ensures |r| == |s|
    ensures forall i :: 0 <= i < |s| && 'A' <= s[i] <= 'Z' ==>
              'a' <= r[i] <= 'z' && r[i] as int - s[i] as int == 'a' as int - 'A' as int
    ensures forall i :: 0 <= i < |s| && !('A' <= s[i] <= 'Z') ==> r[i] == s[i]
  {
    seq(|s|, i requires 0 <= i < |s| => LowerChar(s[i]))
  }

  /** Lowering keeps the length, leaves no upper-case ASCII letter behind and
      changes nothing the second time. */
  lemma ToLowerProperties(s: string)
    ensures |ToLower(s)| == |s|
    ensures forall i :: 0 <= i < |s| ==> !('A' <= ToLower(s)[i] <= 'Z')
    ensures ToLower(ToLower(s)) == ToLower(s)
  {
  }

  /** Two strings compare equal after lowering exactly when they have the same
      length and agree position by position up to ASCII case. */
  lemma EqualFold(s: string, t: string)
    ensures ToLower(s) == ToLower(t) <==>
              |s| == |t| && forall i :: 0 <= i < |s| ==> LowerChar(s[i]) == LowerChar(t[i])
  {
    if |s| == |t| && forall i :: 0 <= i < |s| ==> LowerChar(s[i]) == LowerChar(t[i]) {
      assert forall i :: 0 <= i < |s| ==> ToLower(s)[i] == ToLower(t)[i];
    }
    if ToLower(s) == ToLower(t) {
      assert forall i :: 0 <= i < |s| ==> ToLower(s)[i] == LowerChar(s[i]);
    }
  }
}

=== FILE: types.dfy ===
/** The entities the KVM driver works with: its own record, the errors it
    reports, and a snapshot of everything libvirt and the host's file system
    would answer at one moment. */
module Types {
  import opened Wrappers

  /** Errors the driver reports. `External` carries an error that a libvirt
      or operating-system call returned and that the driver passes on as is. */
  datatype Error =
    | ConnectionRefused               // connecting to libvirtd failed
    | MalformedLeaseFile              // a lease-file line with fewer than 3 fields
    | TooFewInterfaces(found: nat)    // the domain has fewer than 2 interfaces
    | ShutdownTimeout                 // the graceful shutdown did not finish in time
    | MisconfiguredNetwork(network: string) // the private network has no ip address
    | NoDomainHandle                  // a domain call made without a domain handle
    | External(message: string)

  predicate IsDigit(c: char)
  {
    '0' <= c <= '9'
  }

  /** The number a string of decimal digits denotes. */
  function DigitsValue(s: string): nat
    requires forall i :: 0 <= i < |s| ==> IsDigit(s[i])
  {
    if |s| == 0 then 0
    else
      assert IsDigit(s[|s| - 1]);
      DigitsValue(s[..|s| - 1]) * 10 + (s[|s| - 1] as int - '0' as int)
  }

  /** Decimal rendering of a count, as Go's `%d` writes it: digits only, no
      leading zero, and reading the digits back gives the count. */
  function Decimal(n: nat): (s: string)
    ensures |s| >= 1
    ensures forall i :: 0 <= i < |s| ==> IsDigit(s[i])
    ensures s[0] == '0' ==> s == "0"
    ensures DigitsValue(s) == n
    decreases n
  {
    var digit := ['0' + (n % 10) as char];
    if n < 10 then digit
    else
      var r := Decimal(n / 10) + digit;
      assert r[..|r| - 1] == Decimal(n / 10);
      r
  }

  const TooFewPrefix := "VM doesn't have enough network interfaces.  Expected at least 2, found "
  const MisconfiguredSuffix := " network doesn't have DHCP configured properly"

  /** The message text of each error. `NoDomainHandle` stands for a call on
      the Go driver's unset domain pointer, which has no message of its own. */
  function Message(e: Error): (m: string)
    ensures e.External? ==> m == e.message
    ensures !e.External? ==> |m| > 0
    ensures e.TooFewInterfaces? ==>
              |m| > |Decimal(e.found)| && m[|m| - |Decimal(e.found)|..] == Decimal(e.found)
  {
    match e
    case ConnectionRefused =>
      "Unable to connect to kvm driver, did you add yourself to the libvirtd group?"
    case MalformedLeaseFile => "Malformed dnsmasq file"
    case TooFewInterfaces(n) => TooFewPrefix + Decimal(n)
    case ShutdownTimeout => "VM Failed to gracefully shutdown, try the kill command"
    case MisconfiguredNetwork(name) => name + MisconfiguredSuffix
    case NoDomainHandle => "no domain handle"
    case External(m) => m
  }

  /** The driver's own errors can be told apart by their text alone: two of
      them with the same message are the same error, down to the count or the
      network name they carry. */
  lemma MessagesIdentifyErrors(e1: Error, e2: Error)
    requires !e1.External? && !e2.External?
    requires Message(e1) == Message(e2)
    ensures e1 == e2
  {
    var m := Message(e1);
    if e1.TooFewInterfaces? && e2.TooFewInterfaces? {
      assert m[|TooFewPrefix|..] == Decimal(e1.found) == Decimal(e2.found);
      assert e1.found == DigitsValue(Decimal(e1.found)) == e2.found;
    } else if e1.MisconfiguredNetwork? && e2.MisconfiguredNetwork? {
      assert m[..|m| - |MisconfiguredSuffix|] == e1.network == e2.network;
    } else {
      assert LastChar(Message(e1)) == LastChar(Message(e2));
    }
  }

  /** The last character of a message. It separates most kinds of the
      driver's errors; the two fixed texts that share it ("Malformed dnsmasq
      file" and "no domain handle") differ anyway. */
  function LastChar(m: string): char
  {
    if |m| == 0 then ' ' else m[|m| - 1]
  }

  /** The machine states the driver reports (docker-machine's `state.State`). */
  datatype MachineState = None | Running | Paused | Saved | Stopped | Stopping | Starting | Error | Timeout

  /** A libvirt domain reference, identified by the domain's name. */
  datatype DomainRef = DomainRef(name: string)

  /** One `<interface>` element of a domain descriptor, after parsing: its
      `type` attribute, its `<mac address>` and its `<source network>`. */
  datatype Interface = Interface(kind: string, mac: string, sourceNetwork: string)

  /** One live DHCP lease of a libvirt network (`Mac` and `IPaddr`). */
  datatype Lease = Lease(mac: string, ipAddr: string)

  /** The `<ip>` element of a network descriptor and its DHCP range. */
  datatype NetworkDesc = NetworkDesc(name: string, address: string, netmask: string,
                                     rangeStart: string, rangeEnd: string)

  /** What libvirt answers about an existing network: its parsed descriptor
      (or the error of fetching or parsing it), whether it is active (an
      `IsActive` error reads as inactive) and the outcome of starting it. */
  datatype NetworkRecord = NetworkRecord(desc: Result<NetworkDesc, Error>, active: bool,
                                         start: Option<Error>)

  /** Everything the environment answers at one moment. An `Option<Error>`
      field is the error the call returns, `None` for success. */
  datatype Hypervisor = Hypervisor(
    reachable: bool,                          // libvirt.NewConnect succeeds
    lookupDomain: Result<DomainRef, Error>,   // LookupDomainByName(machine name)
    domainState: Result<int, Error>,          // the domain's native state code
    domainInterfaces: Result<seq<Interface>, Error>, // GetXMLDesc, then XML parsing
    files: map<string, string>,               // readable files of the host, by path
    dhcpLeases: Result<seq<Lease>, Error>,    // the private network's live leases
    powerOn: Option<Error>,                   // Domain.Create
    shutdown: Option<Error>,                  // Domain.Shutdown
    destroy: Option<Error>,                   // Domain.Destroy
    undefine: Option<Error>,                  // Domain.Undefine
    removeStorage: Option<Error>,             // os.RemoveAll of the persistent directory
    privateNetwork: Option<NetworkRecord>,    // LookupNetworkByName(private network)
    defineNetwork: Option<Error>,             // NetworkDefineXML
    autostartNetwork: Option<Error>,          // Network.SetAutostart(true)
    startNewNetwork: Option<Error>)           // Network.Create of the new network

  /** The driver's own record. `connected` stands for a cached libvirt
      session; `vm` holds the domain handle once it has been loaded, so it
      plays the part of both the `VM` pointer and the `vmLoaded` flag. */
  datatype Driver = Driver(
    machineName: string,
    network: string,
    privateNetwork: string,
    ipAddress: string,
    connected: bool,
    vm: Option<DomainRef>)

  /** A driver call: the driver record afterwards and what the call returned. */
  datatype Step<+T> = Step(driver: Driver, result: Result<T, Error>)

  /** The configuration part of the record, which no call changes except
      `GetIP` (and the calls built on it) writing the cached address. */
  predicate SameConfig(d: Driver, e: Driver)
  {
    d.machineName == e.machineName && d.network == e.network &&
    d.privateNetwork == e.privateNetwork
  }
}

=== FILE: wrappers.dfy ===
/** Failure-carrying datatypes shared by the whole model.
    A Go function returning `(T, error)` becomes a `Result<T, E>`. The
    modelled functions return the zero value of `T` beside an error, except
    `getConn`, whose empty connection value is not modelled; so the pair
    carries no more information than the Result does. */
module Wrappers {

  datatype Option<+T> = None | Some(value: T)

  datatype Result<+T, +E> = Success(value: T) | Failure(error: E)
}
